=== FILE: README.md ===
# check_unifi — a Dafny model of the UniFi utilisation check

`check_unifi.py` is a monitoring plugin (for Icinga and similar schedulers). It asks a UniFi
controller's integration API for a device's CPU or memory utilisation and compares the value
with a warning and a critical threshold. It then prints one status line and exits with the
monitoring exit code: 0 OK, 1 WARNING, 2 CRITICAL.

The script's decision logic is modelled as pure Dafny functions. The pieces are:

- `Check.EffectiveSiteName` fills in the site default, "Default".
- `Endpoints` builds the three endpoint URLs.
- `Resolver` does the two first-match lookups: a site by `name`, a device by `macAddress`.
- `PyRepr` models the id extraction `str({id}).split("'")[1]`: Python's `repr` of a string
  and `str.split`.
- `Metric.SelectMetric` picks the metric for the mode.
- `Classifier.Classify` is the threshold classifier.
- `Reporter.StatusLine` formats the status line, and `Decimal` renders integers in decimal.

`Check.Run` composes these pieces into one pure function over an abstract controller. The
controller answers each kind of request with a status code and a typed payload. `Run`
returns the outcome and the requests it issued.

The script crashes in four places:

- a failed sites request (NameError at line 99);
- a missing site (TypeError at line 96);
- a missing device (NameError at line 140);
- an unknown mode (`utilval` is unbound at line 126).

The model gives each of these its own `Outcome` variant. Two functions then render an outcome:

- `Check.AsWrittenEffect` gives what the script actually does. A crash prints no line and exits
  with status 1. The two diagnostics that do print fall off the end of `main` and exit with 0.
- `Check.CorrectedEffect` gives one line for every outcome. It repairs the two evident slips
  listed under Findings.

Notes on where the model's reading of the script matters:

- The script tests the WARNING band `[warn, crit)` before the CRITICAL threshold. The model
  keeps that order and proves it equal to the critical-first reading.
- The script checks the mode only after all three requests. The model follows the script, so
  an unknown mode is reported after the statistics request, not before any request.
- The devices-request failure prints "Error for request device statistics: <code>" as
  written, although it is the devices request that failed.
- `if device:` at line 110 is the same test as "a device was found". A record that matched on
  `macAddress` is a non-empty dict and so is truthy.
- Diagnostics exit with status 0, which the monitoring system reads as OK. Only the printed
  line tells a failure apart from a reading. `Check.DiagnosticNeverStatusLine` proves that the
  line always does.
- The missing-site and unknown-mode lines in `Check.Diagnostic` use this model's own wording.
  The script has no message for those cases.

## Model

| member | source | states |
|---|---|---|
| Classifier.Classify | check_unifi.py:126-134 | CRITICAL exactly when value >= crit; WARNING exactly when warn <= value < crit; OK exactly when the value is below both thresholds |
| Classifier.ExitCode | check_unifi.py:128-134 | each level's exit code lies in 0..2 (OK 0, WARNING 1, CRITICAL 2) |
| Classifier.ClassifyOrderIrrelevant | check_unifi.py:126-134 | testing the warning band first, as the script does, agrees with testing the critical threshold first, for every ordering of the thresholds |
| Classifier.CriticalPrecedence | check_unifi.py:126-131 | when warn >= crit (including warn == crit) no value is WARNING: it is CRITICAL from crit on and OK below |
| Classifier.ClassifyMonotone | check_unifi.py:126-134 | for fixed thresholds a larger value never gets a lower level |
| Classifier.ClassifyAntitoneInThresholds | check_unifi.py:126-134 | raising either threshold never raises the level of a fixed value |
| Decimal.NatToString | check_unifi.py:127 | the decimal rendering is a non-empty string of digits with no leading zero: the only rendering that starts with '0' is "0" itself, for 0 |
| Decimal.IntToString | check_unifi.py:127 | an integer's rendering is non-empty and has no space; it starts with '-' exactly for negative values; the only rendering that starts with '0' is "0", and a negative value's digits do not start with '0' (no "07", "00" or "-0"), as Python's `str(int)` prints |
| Decimal.ParseIntToString | check_unifi.py:127 | parsing the rendering of any integer gives the integer back |
| Decimal.IntToStringInjective | check_unifi.py:127 | different values print differently |
| Reporter.ParseStatusLineRoundTrip | check_unifi.py:127-133 | a printed status line parses back to exactly its level, mode and value |
| Reporter.StatusLineInjective | check_unifi.py:127-133 | two status lines coincide only when level, mode and value all agree |
| Resolver.FirstIndex | check_unifi.py:95 | the index found holds a matching record and no earlier record matches; no index means no record matches |
| Resolver.FindFirst | check_unifi.py:95 | a record is found exactly when one matches; the result matches and is the first matching record in order |
| Resolver.FindSite | check_unifi.py:95 | found exactly when a site has the name; the result is the first site with that name |
| Resolver.FindDevice | check_unifi.py:108 | found exactly when a device has the MAC address; the result is the first such device |
| Resolver.FindFirstIgnoresSuffix | check_unifi.py:108 | records after the first match never change the lookup result |
| PyRepr.Split | check_unifi.py:96 | `str.split` on one character yields at least one piece and no piece contains the separator |
| PyRepr.JoinSplit | check_unifi.py:96 | joining the pieces of a split with the separator restores the text |
| PyRepr.SetReprSplitsInTwo | check_unifi.py:96-97 | `str({id})` always splits into at least two pieces at `'`, so index 1 exists for every id |
| PyRepr.ExtractUnquotedId | check_unifi.py:111-113 | for every id without a `'`, `str({id}).split("'")[1]` is the body of the id's `repr`: the id with backslashes doubled and control characters escaped |
| PyRepr.ExtractSafeId | check_unifi.py:96-97 | for an id of printable ASCII with no `'`, `"` or backslash, `str({id}).split("'")[1]` is the id itself |
| PyRepr.ExtractQuotedIdMangled | check_unifi.py:111-113 | an id holding `'` comes back mangled: for `a'b` the extraction gives `b"}` |
| PyRepr.ExtractBackslashIdDoubled | check_unifi.py:111-113 | the id `a\b` comes back as `a\\b`, its backslash doubled |
| Endpoints.EndpointsNest | check_unifi.py:90-116 | the sites URL starts with the scheme; the devices URL extends the sites URL plus "/"; the statistics URL equals the devices URL plus "/<deviceId>/statistics/latest" |
| Endpoints.SitesUrlInjective | check_unifi.py:90 | the sites URL determines the controller address |
| Endpoints.DevicesUrlInjective | check_unifi.py:102 | on one controller the devices URL determines the site id |
| Endpoints.StatisticsUrlInjective | check_unifi.py:116 | on one controller, for slash-free site ids, the statistics URL determines both site id and device id |
| Metric.SelectMetric | check_unifi.py:121-124 | a value is selected exactly for the modes cpu and memory: cpuUtilizationPct for cpu, memoryUtilizationPct for memory, nothing otherwise |
| Check.EffectiveSiteName | check_unifi.py:78-79 | the effective name is never empty; an empty name becomes "Default", any other name is kept |
| Check.EffectiveSiteNameIdempotent | check_unifi.py:78-79 | applying the default twice gives the same name as applying it once |
| Check.Run | check_unifi.py:89-117 | the requests issued match the stage reached; the first is the sites URL; every request carries the configured API key; each later URL extends the previous one plus "/" |
| Check.AsWrittenEffect | check_unifi.py:93-142 | the script prints nothing exactly for the four crash outcomes (sites request failed, site missing, device missing, unknown mode), and exactly then exits with 1 outside a classification; a classification prints its status line and exits with its level's code; a statistics failure prints "No statistics found." and a devices-request failure prints "Error for request device statistics: <code>", both with exit status 0 |
| Check.CorrectedEffect | check_unifi.py:126-142 | every outcome prints a line; a classification prints its status line and exits with its level's code; every diagnostic exits with 0 |
| Check.CorrectedKeepsPrintedLines | check_unifi.py:127-142 | wherever the script prints a line, the corrected behaviour prints the same line with the same exit status |
| Check.DiagnosticNeverStatusLine | check_unifi.py:127-142 | no diagnostic line equals any status line |
| CheckProperties.SitesRequestFailedIff | check_unifi.py:91-99 | the pipeline stops at the sites stage exactly when the sites answer is not 200, and it reports that status |
| CheckProperties.SiteNotFoundIff | check_unifi.py:93-96 | the site is reported missing exactly when the sites request succeeded and no entry has the effective site name |
| CheckProperties.DevicesRequestAddressesFirstSite | check_unifi.py:95-103 | the devices request goes to the devices URL of the first site with the effective name |
| CheckProperties.StatisticsRequestAddressesFirstDevice | check_unifi.py:108-116 | after three requests, the site and the device were both found, and the statistics request goes to the statistics URL of the first matching device under the first matching site, each addressed by its extracted id |
| CheckProperties.DevicesRequestFailedIff | check_unifi.py:103-105 | past the sites stage, the pipeline stops at the devices stage exactly when that answer is not 200, and it reports that status |
| CheckProperties.DeviceNotFoundIff | check_unifi.py:105-110 | the device is reported missing exactly when the devices request succeeded and no device has the configured MAC |
| CheckProperties.ClassifiedMeans | check_unifi.py:117-134 | after three requests: statistics not found exactly on a non-200 answer; unknown mode exactly for a mode other than cpu/memory; a classification is the classifier's verdict on the selected metric |
| CheckProperties.ScenarioOutcome | check_unifi.py:93-134 | on the sample controller (site s1 "Default", device d1 aa:bb:cc:dd:ee:ff) every CPU reading is classified against 80/90 |
| CheckProperties.ScenarioEffect | check_unifi.py:126-134 | on the sample controller the printed line is the status line with the level's exit code, as written and corrected alike |
| SampleReadings.ScenarioWarning | check_unifi.py:126-128 | reading 85 against 80/90 prints "WARNING - cpu utilization in %: 85" and exits with 1 |
| SampleReadings.ScenarioCritical | check_unifi.py:129-131 | reading 95 against 80/90 prints "CRITICAL - cpu utilization in %: 95" and exits with 2 |
| SampleReadings.ScenarioOk | check_unifi.py:132-134 | reading 10 against 80/90 prints "OK - cpu utilization in %: 10" and exits with 0 |
| CheckProperties.SitesFailureCrashesAsWritten | check_unifi.py:98-99 | as written, a failed sites request prints nothing and exits with 1, the WARNING code |
| CheckProperties.SitesFailureReported | check_unifi.py:99 | corrected, a failed sites request prints "Error for request sites: <code>" after exactly one request |
| CheckProperties.DeviceMissingCrashesAsWritten | check_unifi.py:139-140 | as written, a missing device prints nothing and exits with 1, the WARNING code |
| CheckProperties.ScenarioDeviceMissing | check_unifi.py:108-110 | a site with no devices leads to the missing-device outcome for the configured MAC |
| CheckProperties.DeviceMissingReported | check_unifi.py:140 | corrected, a missing device prints "No devices with mac-address <mac> found." |

## Left out

- Argument parsing, the help text and the usage exit (lines 43-76) are command-line plumbing. `Check.Config` holds the parsed values.
- HTTP is left out: the session, `verify=False`, the warning suppression and `session.close` (lines 32-33, 87, 91, 103, 117, 145). The controller is a parameter that maps each request to a status code and payload.
- JSON decoding is left out, and so are the `KeyError`s a missing `data`, `name`, `id`, `macAddress` or metric key would raise. Payloads are typed records that always hold these fields.
- `int(...)` coercion of thresholds and metric values is left out (lines 126-129). So are the `ValueError` for a non-numeric string and the truncation of a float metric. Values and thresholds are integers here, and the printed value is that integer.
- PyRepr.StrRepr: Python's `repr` writes non-ASCII code points it deems non-printable (U+0085 and U+00A0, say) as `\x..`, `\u....` or `\U........` escapes. The model writes them literally, because Python's printability table is not modelled. `PyRepr.SafeId` admits printable ASCII only, so no safe id contains one.
- PyRepr.ExtractUnquotedId: for an id holding such a non-ASCII non-printable code point, the body it states differs from Python's output, for the reason in the line above.
- Request timeouts and retries are not modelled. The script sets no timeout and retries nothing, so each request is sent at most once.
- A request that raises or never returns is not modelled: an unreachable controller (ConnectionError), a malformed URL such as the one an empty `-i` gives (InvalidURL), or a controller that never answers. `Check.Controller` answers every request. In the raising cases the script dies with exit status 1 and prints no line; in the last it hangs.

## Findings

| source | as written | input that shows it | evidently intended | confidence | as-written member | corrected member |
|---|---|---|---|---|---|---|
| check_unifi.py:99 | prints `response.status_code`, but `response` is not yet bound, so NameError | any sites answer with a status other than 200, e.g. 401 for a bad API key | print "Error for request sites: <status>" from `response_sites` and stop | high, not executed | CheckProperties.SitesFailureCrashesAsWritten | CheckProperties.SitesFailureReported |
| check_unifi.py:140 | formats `device_mac`, which is never bound, so NameError | a device list with no entry for the configured MAC, e.g. an empty list | print "No devices with mac-address <mac> found." using `unifi_device_mac` | high, not executed | CheckProperties.DeviceMissingCrashesAsWritten | CheckProperties.DeviceMissingReported |

=== FILE: check.dfy ===
/** The whole check: resolve the site, resolve the device, fetch its latest
    statistics, classify the selected utilisation and report it. The three
    HTTP requests are answered by an abstract controller, so the pipeline
    is a pure function of the configuration and the controller's answers. */
module Check {
  import opened Wrappers
  import opened Classifier
  import opened Decimal
  import opened Reporter
  import opened Resolver
  import opened PyRepr
  import opened Endpoints
  import opened Metric

  /** The command-line options after parsing; thresholds already integers. */
  datatype Config = Config(
    controllerAddr: string,
    apiKey: string,
    siteName: string,
    mode: string,
    deviceMac: string,
    warnLevel: int,
    critLevel: int)

  /** One GET request: the URL and the value of its `X-API-KEY` header. */
  datatype Request = Get(url: string, apiKey: string)

  /** A controller answer: the HTTP status and the decoded `data` payload. */
  datatype Response<P> = Response(statusCode: int, payload: P)

  /** The controller, as the answers it gives to each of the three kinds of request. */
  datatype Controller = Controller(
    sites: Request -> Response<seq<Site>>,
    devices: Request -> Response<seq<Device>>,
    statistics: Request -> Response<Statistics>)

  const HttpOk: int := 200
  const DefaultSite: string := "Default"

  /** How an invocation ends. The source crashes in four of these cases
      (sites request failed, site missing, device missing, unknown mode);
      here each is an outcome of its own. */
  datatype Outcome =
    | SitesRequestFailed(statusCode: int)
    | SiteNotFound(name: string)
    | DevicesRequestFailed(statusCode: int)
    | DeviceNotFound(mac: string)
    | StatisticsNotFound
    | UnknownMode(mode: string)
    | Classified(status: Status, mode: string, value: int)

  /** The outcome together with the requests issued, in order. */
  datatype Invocation = Invocation(outcome: Outcome, requests: seq<Request>)

  /** What the process leaves behind: the line printed on standard output
      (none when it dies with a traceback) and its exit status. */
  datatype Effect = Effect(line: Option<string>, exitCode: int)

  /** An empty site name stands for the site called "Default". */
  function EffectiveSiteName(name: string): (r: string)
    ensures r != ""
    ensures name != "" ==> r == name
    ensures name == "" ==> r == DefaultSite
  {
    if name == "" then DefaultSite else name
  }

  /** Applying the default twice changes nothing more than applying it once. */
  lemma EffectiveSiteNameIdempotent(name: string)
    ensures EffectiveSiteName(EffectiveSiteName(name)) == EffectiveSiteName(name)
  {
  }

  /** The number of requests issued before the outcome was known. */
  function RequestsBefore(o: Outcome): nat {
    match o
    case SitesRequestFailed(_) => 1
    case SiteNotFound(_) => 1
    case DevicesRequestFailed(_) => 2
    case DeviceNotFound(_) => 2
    case _ => 3
  }

  /** Every request carries the configured API key. */
  predicate AllCarry(requests: seq<Request>, apiKey: string) {
    forall i :: 0 <= i < |requests| ==> requests[i].apiKey == apiKey
  }

  /** Each request's URL extends the previous one's plus "/". */
  predicate Chained(requests: seq<Request>) {
    forall i :: 0 <= i < |requests| - 1 ==> IsPrefix(requests[i].url + "/", requests[i + 1].url)
  }

  lemma ChainCons(r: Request, rest: seq<Request>, apiKey: string)
    requires |rest| >= 1 && Chained(rest) && IsPrefix(r.url + "/", rest[0].url)
    requires r.apiKey == apiKey && AllCarry(rest, apiKey)
    ensures Chained([r] + rest) && AllCarry([r] + rest, apiKey)
  {
    var all := [r] + rest;
    forall i | 0 <= i < |all| - 1
      ensures IsPrefix(all[i].url + "/", all[i + 1].url)
    {
      if i > 0 {
        assert all[i] == rest[i - 1] && all[i + 1] == rest[i];
      }
    }
  }

  /** The pipeline. Each stage short-circuits on its own failure. */
  function Run(cfg: Config, ctl: Controller): (inv: Invocation)
    ensures |inv.requests| == RequestsBefore(inv.outcome)
    ensures inv.requests[0] == Get(SitesUrl(cfg.controllerAddr), cfg.apiKey)
    ensures AllCarry(inv.requests, cfg.apiKey)
    ensures Chained(inv.requests)
  {
    var sitesReq := Get(SitesUrl(cfg.controllerAddr), cfg.apiKey);
    var sitesResp := ctl.sites(sitesReq);
    if sitesResp.statusCode != HttpOk then
      Invocation(SitesRequestFailed(sitesResp.statusCode), [sitesReq])
    else
      var siteName := EffectiveSiteName(cfg.siteName);
      match FindSite(sitesResp.payload, siteName)
      case None => Invocation(SiteNotFound(siteName), [sitesReq])
      case Some(site) =>
        var siteId := ExtractId(site.id);
        var rest := DevicesStage(cfg, ctl, siteId);
        EndpointsNest(cfg.controllerAddr, siteId, "");
        ChainCons(sitesReq, rest.requests, cfg.apiKey);
        Invocation(rest.outcome, [sitesReq] + rest.requests)
  }

  /** From the devices request of the resolved site onwards. */
  function DevicesStage(cfg: Config, ctl: Controller, siteId: string): (inv: Invocation)
    ensures RequestsBefore(inv.outcome) >= 2
    ensures |inv.requests| + 1 == RequestsBefore(inv.outcome)
    ensures inv.requests[0] == Get(DevicesUrl(cfg.controllerAddr, siteId), cfg.apiKey)
    ensures AllCarry(inv.requests, cfg.apiKey)
    ensures Chained(inv.requests)
  {
    var devicesReq := Get(DevicesUrl(cfg.controllerAddr, siteId), cfg.apiKey);
    var devicesResp := ctl.devices(devicesReq);
    if devicesResp.statusCode != HttpOk then
      Invocation(DevicesRequestFailed(devicesResp.statusCode), [devicesReq])
    else match FindDevice(devicesResp.payload, cfg.deviceMac)
      case None => Invocation(DeviceNotFound(cfg.deviceMac), [devicesReq])
      case Some(device) =>
        var deviceId := ExtractId(device.id);
        var rest := StatisticsStage(cfg, ctl, siteId, deviceId);
        EndpointsNest(cfg.controllerAddr, siteId, deviceId);
        ChainCons(devicesReq, rest.requests, cfg.apiKey);
        Invocation(rest.outcome, [devicesReq] + rest.requests)
  }

  /** The statistics request of the resolved device and the classification. */
  function StatisticsStage(cfg: Config, ctl: Controller, siteId: string, deviceId: string): (inv: Invocation)
    ensures RequestsBefore(inv.outcome) == 3
    ensures inv.requests == [Get(StatisticsUrl(cfg.controllerAddr, siteId, deviceId), cfg.apiKey)]
  {
    var statsReq := Get(StatisticsUrl(cfg.controllerAddr, siteId, deviceId), cfg.apiKey);
    var statsResp := ctl.statistics(statsReq);
    if statsResp.statusCode != HttpOk then Invocation(StatisticsNotFound, [statsReq])
    else match SelectMetric(cfg.mode, statsResp.payload)
      case None => Invocation(UnknownMode(cfg.mode), [statsReq])
      case Some(value) =>
        Invocation(Classified(Classify(value, cfg.warnLevel, cfg.critLevel), cfg.mode, value), [statsReq])
  }

  /** The exit status of a Python process that dies of an uncaught exception. */
  const UncaughtExceptionExit: int := 1

  /** What the script as written does with each outcome: it crashes where
      it dereferences a missing record or an unbound name, it falls off the
      end of `main` (exit status 0) after its two diagnostics, and it exits
      with the level's code after a status line. */
  function AsWrittenEffect(o: Outcome): (e: Effect)
    ensures e.line.None? <==> e.exitCode == UncaughtExceptionExit && !o.Classified?
    ensures e.line.None? <==> o.SitesRequestFailed? || o.SiteNotFound? || o.DeviceNotFound? || o.UnknownMode?
    ensures o.Classified? ==> e == Effect(Some(StatusLine(o.status, o.mode, o.value)), ExitCode(o.status))
    ensures o.StatisticsNotFound? ==> e == Effect(Some("No statistics found."), 0)
    ensures o.DevicesRequestFailed? ==>
      e == Effect(Some("Error for request device statistics: " + IntToString(o.statusCode)), 0)
  {
    match o
    case SitesRequestFailed(_) => Effect(None, UncaughtExceptionExit)
    case SiteNotFound(_) => Effect(None, UncaughtExceptionExit)
    case DevicesRequestFailed(code) =>
      Effect(Some("Error for request device statistics: " + IntToString(code)), 0)
    case DeviceNotFound(_) => Effect(None, UncaughtExceptionExit)
    case StatisticsNotFound => Effect(Some("No statistics found."), 0)
    case UnknownMode(_) => Effect(None, UncaughtExceptionExit)
    case Classified(s, mode, value) => Effect(Some(StatusLine(s, mode, value)), ExitCode(s))
  }

  /** The diagnostic line for an outcome that is not a classification. */
  function Diagnostic(o: Outcome): string
    requires !o.Classified?
  {
    match o
    case SitesRequestFailed(code) => "Error for request sites: " + IntToString(code)
    case SiteNotFound(name) => "No site with name " + name + " found."
    case DevicesRequestFailed(code) => "Error for request device statistics: " + IntToString(code)
    case DeviceNotFound(mac) => "No devices with mac-address " + mac + " found."
    case StatisticsNotFound => "No statistics found."
    case UnknownMode(mode) => "Unknown mode " + mode + "."
  }

  /** The corrected behaviour: every outcome prints one line; a
      classification exits with its level's code and every diagnostic
      ends `main` normally, as the script's own diagnostics do. */
  function CorrectedEffect(o: Outcome): (e: Effect)
    ensures e.line.Some?
    ensures o.Classified? ==> e == Effect(Some(StatusLine(o.status, o.mode, o.value)), ExitCode(o.status))
    ensures !o.Classified? ==> e.exitCode == 0
  {
    if o.Classified? then Effect(Some(StatusLine(o.status, o.mode, o.value)), ExitCode(o.status))
    else Effect(Some(Diagnostic(o)), 0)
  }

  /** Where the script as written prints a line, the corrected behaviour
      prints the same line with the same exit status. */
  lemma CorrectedKeepsPrintedLines(o: Outcome)
    requires AsWrittenEffect(o).line.Some?
    ensures CorrectedEffect(o) == AsWrittenEffect(o)
  {
  }

  /** A status line and a diagnostic never coincide: they differ in their
      first character, so an operator can tell a controller failure from a
      metric reading even where both exit with status 0. */
  lemma DiagnosticNeverStatusLine(o: Outcome, s: Status, mode: string, value: int)
    requires !o.Classified?
    ensures Diagnostic(o) != StatusLine(s, mode, value)
  {
    var line := StatusLine(s, mode, value);
    assert line == LevelPrefix(s) + StatusBody(mode, value);
    assert line[0] == Name(s)[0];
    assert Diagnostic(o)[0] in {'E', 'N', 'U'};
  }
}

=== FILE: check_properties.dfy ===
/** What the pipeline promises, stage by stage, and the end-to-end scenarios. */
module CheckProperties {
  import opened Wrappers
  import opened Classifier
  import opened Decimal
  import opened Reporter
  import opened Resolver
  import opened PyRepr
  import opened Endpoints
  import opened Metric
  import opened Check

  /** The answer to the sites request the pipeline always issues first. */
  function SitesAnswer(cfg: Config, ctl: Controller): Response<seq<Site>> {
    ctl.sites(Get(SitesUrl(cfg.controllerAddr), cfg.apiKey))
  }

  /** The pipeline stops at the sites stage with the controller's status
      exactly when that status is not 200. */
  lemma SitesRequestFailedIff(cfg: Config, ctl: Controller)
    ensures Run(cfg, ctl).outcome.SitesRequestFailed?
      <==> SitesAnswer(cfg, ctl).statusCode != HttpOk
    ensures Run(cfg, ctl).outcome.SitesRequestFailed? ==>
      Run(cfg, ctl).outcome.statusCode == SitesAnswer(cfg, ctl).statusCode
  {
  }

  /** The site is reported missing exactly when the sites request succeeded
      and no entry carries the effective site name. */
  lemma SiteNotFoundIff(cfg: Config, ctl: Controller)
    ensures Run(cfg, ctl).outcome.SiteNotFound?
      <==> (SitesAnswer(cfg, ctl).statusCode == HttpOk
        && forall i :: 0 <= i < |SitesAnswer(cfg, ctl).payload| ==>
          SitesAnswer(cfg, ctl).payload[i].name != EffectiveSiteName(cfg.siteName))
    ensures Run(cfg, ctl).outcome.SiteNotFound? ==>
      Run(cfg, ctl).outcome.name == EffectiveSiteName(cfg.siteName)
  {
  }

  /** Once past the sites stage, the devices request goes to the first site
      whose name matches, addressed by that site's id. */
  lemma DevicesRequestAddressesFirstSite(cfg: Config, ctl: Controller)
    requires RequestsBefore(Run(cfg, ctl).outcome) >= 2
    ensures SitesAnswer(cfg, ctl).statusCode == HttpOk
    ensures exists i :: (0 <= i < |SitesAnswer(cfg, ctl).payload|
      && SitesAnswer(cfg, ctl).payload[i].name == EffectiveSiteName(cfg.siteName)
      && (forall j :: 0 <= j < i ==> SitesAnswer(cfg, ctl).payload[j].name != EffectiveSiteName(cfg.siteName))
      && Run(cfg, ctl).requests[1].url
        == DevicesUrl(cfg.controllerAddr, ExtractId(SitesAnswer(cfg, ctl).payload[i].id)))
  {
    var site := FindSite(SitesAnswer(cfg, ctl).payload, EffectiveSiteName(cfg.siteName)).value;
    assert Run(cfg, ctl).requests[1].url == DevicesUrl(cfg.controllerAddr, ExtractId(site.id));
  }

  /** Once past the devices stage, the statistics request goes to the
      first device whose MAC address matches, under the first matching
      site, both addressed by their extracted ids. */
  lemma StatisticsRequestAddressesFirstDevice(cfg: Config, ctl: Controller)
    requires RequestsBefore(Run(cfg, ctl).outcome) == 3
    ensures FindSite(SitesAnswer(cfg, ctl).payload, EffectiveSiteName(cfg.siteName)).Some?
    ensures ctl.devices(Run(cfg, ctl).requests[1]).statusCode == HttpOk
    ensures FindDevice(ctl.devices(Run(cfg, ctl).requests[1]).payload, cfg.deviceMac).Some?
    ensures Run(cfg, ctl).requests[2] == Get(StatisticsUrl(cfg.controllerAddr,
      ExtractId(FindSite(SitesAnswer(cfg, ctl).payload, EffectiveSiteName(cfg.siteName)).value.id),
      ExtractId(FindDevice(ctl.devices(Run(cfg, ctl).requests[1]).payload, cfg.deviceMac).value.id)), cfg.apiKey)
  {
  }

  /** Past the sites stage, the pipeline stops at the devices stage with
      the controller's status exactly when that status is not 200. */
  lemma DevicesRequestFailedIff(cfg: Config, ctl: Controller)
    ensures Run(cfg, ctl).outcome.DevicesRequestFailed?
      <==> (RequestsBefore(Run(cfg, ctl).outcome) >= 2
        && ctl.devices(Run(cfg, ctl).requests[1]).statusCode != HttpOk)
    ensures Run(cfg, ctl).outcome.DevicesRequestFailed? ==>
      Run(cfg, ctl).outcome.statusCode == ctl.devices(Run(cfg, ctl).requests[1]).statusCode
  {
  }

  /** The device is reported missing exactly when both earlier requests
      succeeded, the site was found, and no device of that site carries
      the configured MAC address. */
  lemma DeviceNotFoundIff(cfg: Config, ctl: Controller)
    ensures Run(cfg, ctl).outcome.DeviceNotFound?
      <==> (RequestsBefore(Run(cfg, ctl).outcome) >= 2
        && ctl.devices(Run(cfg, ctl).requests[1]).statusCode == HttpOk
        && forall i :: 0 <= i < |ctl.devices(Run(cfg, ctl).requests[1]).payload| ==>
          ctl.devices(Run(cfg, ctl).requests[1]).payload[i].macAddress != cfg.deviceMac)
    ensures Run(cfg, ctl).outcome.DeviceNotFound? ==>
      Run(cfg, ctl).outcome.mac == cfg.deviceMac
  {
  }

  /** A classification is the classifier's verdict on the metric the mode
      selects from a successful statistics answer, against the configured
      thresholds; the mode not naming a metric gives UnknownMode instead. */
  lemma ClassifiedMeans(cfg: Config, ctl: Controller)
    requires RequestsBefore(Run(cfg, ctl).outcome) == 3
    ensures var inv := Run(cfg, ctl);
      var answer := ctl.statistics(inv.requests[2]);
      && (inv.outcome.StatisticsNotFound? <==> answer.statusCode != HttpOk)
      && (inv.outcome.UnknownMode? <==> answer.statusCode == HttpOk && cfg.mode !in KnownModes)
      && (inv.outcome.Classified? ==>
        && answer.statusCode == HttpOk
        && SelectMetric(cfg.mode, answer.payload) == Some(inv.outcome.value)
        && inv.outcome.status == Classify(inv.outcome.value, cfg.warnLevel, cfg.critLevel)
        && inv.outcome.mode == cfg.mode)
  {
  }

  /** A controller that answers every request of a kind the same way. */
  function FixedController(sites: seq<Site>, devices: seq<Device>, stats: Response<Statistics>): Controller {
    Controller(
      (r: Request) => Response(HttpOk, sites),
      (r: Request) => Response(HttpOk, devices),
      (r: Request) => stats)
  }

  const ScenarioMac: string := "aa:bb:cc:dd:ee:ff"

  function ScenarioConfig(mode: string): Config {
    Config("192.168.2.1", "key", "", mode, ScenarioMac, 80, 90)
  }

  function ScenarioController(cpu: int): Controller {
    FixedController([Site("s1", "Default")], [Device("d1", ScenarioMac)], Response(HttpOk, Statistics(cpu, 40)))
  }

  lemma ScenarioIds()
    ensures ExtractId("s1") == "s1" && ExtractId("d1") == "d1"
  {
    ExtractSafeId("s1");
    ExtractSafeId("d1");
  }

  /** The scenario site and device are found, so the reading is classified. */
  lemma ScenarioOutcome(cpu: int)
    ensures Run(ScenarioConfig("cpu"), ScenarioController(cpu)).outcome
      == Classified(Classify(cpu, 80, 90), "cpu", cpu)
  {
    ScenarioIds();
    var cfg := ScenarioConfig("cpu");
    var ctl := ScenarioController(cpu);
    assert EffectiveSiteName(cfg.siteName) == "Default";
    assert FindSite([Site("s1", "Default")], "Default") == Some(Site("s1", "Default"));
    assert FindDevice([Device("d1", ScenarioMac)], ScenarioMac) == Some(Device("d1", ScenarioMac));
    assert SelectMetric("cpu", Statistics(cpu, 40)) == Some(cpu);
  }

  /** End to end on the scenario controller: whatever the CPU reading, the
      default site and the configured device are found and the reading is
      classified against 80/90 and printed as a status line. */
  lemma ScenarioEffect(cpu: int)
    ensures CorrectedEffect(Run(ScenarioConfig("cpu"), ScenarioController(cpu)).outcome)
      == Effect(Some(StatusLine(Classify(cpu, 80, 90), "cpu", cpu)), ExitCode(Classify(cpu, 80, 90)))
    ensures AsWrittenEffect(Run(ScenarioConfig("cpu"), ScenarioController(cpu)).outcome)
      == CorrectedEffect(Run(ScenarioConfig("cpu"), ScenarioController(cpu)).outcome)
  {
    ScenarioOutcome(cpu);
  }

  /** Line 99 as written: a failed sites request raises NameError (it reads
      the unbound `response`), so nothing is printed and the process exits
      with status 1, which the monitoring system reads as WARNING. */
  lemma SitesFailureCrashesAsWritten(cfg: Config, ctl: Controller)
    requires SitesAnswer(cfg, ctl).statusCode != HttpOk
    ensures AsWrittenEffect(Run(cfg, ctl).outcome) == Effect(None, ExitCode(Warning))
  {
  }

  /** Line 99 corrected: a failed sites request prints its status code. */
  lemma SitesFailureReported(cfg: Config, ctl: Controller)
    requires SitesAnswer(cfg, ctl).statusCode != HttpOk
    ensures CorrectedEffect(Run(cfg, ctl).outcome)
      == Effect(Some("Error for request sites: " + IntToString(SitesAnswer(cfg, ctl).statusCode)), 0)
    ensures |Run(cfg, ctl).requests| == 1
  {
  }

  /** Line 140 as written: an unknown MAC address raises NameError (it
      reads the unbound `device_mac`), so nothing is printed and the process
      exits with status 1, which reads as WARNING. */
  lemma DeviceMissingCrashesAsWritten(cfg: Config, ctl: Controller)
    requires Run(cfg, ctl).outcome.DeviceNotFound?
    ensures AsWrittenEffect(Run(cfg, ctl).outcome) == Effect(None, ExitCode(Warning))
  {
  }

  /** The missing-device path is reached: the scenario site holding no
      devices at all. */
  lemma ScenarioDeviceMissing(stats: Response<Statistics>)
    ensures Run(ScenarioConfig("cpu"), FixedController([Site("s1", "Default")], [], stats)).outcome
      == DeviceNotFound(ScenarioMac)
  {
    ScenarioIds();
    assert FindSite([Site("s1", "Default")], "Default") == Some(Site("s1", "Default"));
  }

  /** Line 140 corrected: a missing device is named in the printed line. */
  lemma DeviceMissingReported(cfg: Config, ctl: Controller)
    requires Run(cfg, ctl).outcome.DeviceNotFound?
    ensures CorrectedEffect(Run(cfg, ctl).outcome)
      == Effect(Some("No devices with mac-address " + cfg.deviceMac + " found."), 0)
  {
  }
}

=== FILE: classifier.dfy ===
/** The three-level threshold classification at the end of check_unifi.py. */
module Classifier {

  /** The status levels of a monitoring plugin, in increasing severity. */
  datatype Status = Ok | Warning | Critical

  /** The process exit code the script passes to `sys.exit` for each level. */
  function ExitCode(s: Status): (code: int)
    ensures 0 <= code <= 2
  {
    match s
    case Ok => 0
    case Warning => 1
    case Critical => 2
  }

  /** The level's name as it opens the printed status line. */
  function Name(s: Status): string {
    match s
    case Ok => "OK"
    case Warning => "WARNING"
    case Critical => "CRITICAL"
  }

  /** Severity order: OK < WARNING < CRITICAL. */
  predicate AtMost(a: Status, b: Status) {
    ExitCode(a) <= ExitCode(b)
  }

  /** The classification exactly as the script writes it: the WARNING test
      (value inside [warn, crit)) comes first, then the CRITICAL test, and
      everything else is OK. */
  function Classify(value: int, warn: int, crit: int): (s: Status)
    ensures s == Critical <==> value >= crit
    ensures s == Warning <==> warn <= value < crit
    ensures s == Ok <==> value < warn && value < crit
  {
    if value >= warn && value < crit then Warning
    else if value >= crit then Critical
    else Ok
  }

  /** An independent reading of the same rule with the critical test first:
      the order a reader of the thresholds expects. */
  function ClassifyCriticalFirst(value: int, warn: int, crit: int): Status {
    if value >= crit then Critical
    else if value >= warn then Warning
    else Ok
  }

  /** Testing the warning band first or the critical threshold first makes
      no difference, for every ordering of the thresholds. */
  lemma ClassifyOrderIrrelevant(value: int, warn: int, crit: int)
    ensures Classify(value, warn, crit) == ClassifyCriticalFirst(value, warn, crit)
  {
  }

  /** Critical takes precedence: when warn >= crit (including warn == crit)
      the warning band is empty and no value is WARNING. */
  lemma CriticalPrecedence(value: int, warn: int, crit: int)
    requires warn >= crit
    ensures Classify(value, warn, crit) != Warning
    ensures Classify(value, warn, crit) == (if value >= crit then Critical else Ok)
  {
  }

  /** For fixed thresholds, a larger value never yields a lower level. */
  lemma ClassifyMonotone(v1: int, v2: int, warn: int, crit: int)
    requires v1 <= v2
    ensures AtMost(Classify(v1, warn, crit), Classify(v2, warn, crit))
  {
  }

  /** Raising either threshold never raises the level of a fixed value. */
  lemma ClassifyAntitoneInThresholds(value: int, warn1: int, crit1: int, warn2: int, crit2: int)
    requires warn1 <= warn2 && crit1 <= crit2
    ensures AtMost(Classify(value, warn2, crit2), Classify(value, warn1, crit1))
  {
  }
}

=== FILE: decimal.dfy ===
/** Decimal rendering of integers, as Python's `str(int)` (and an f-string
    `{value}` of an int) writes them, with the parser that inverts it. */
module Decimal {
  import opened Wrappers

  predicate IsDigit(c: char) {
    '0' <= c <= '9'
  }

  function DigitChar(d: nat): (c: char)
    requires d < 10
    ensures IsDigit(c)
  {
    "0123456789"[d]
  }

  function DigitValue(c: char): (d: nat)
    requires IsDigit(c)
    ensures d < 10
  {
    (c as int - '0' as int) as nat
  }

  predicate AllDigits(s: string) {
    forall i :: 0 <= i < |s| ==> IsDigit(s[i])
  }

  /** The digits of a natural number, most significant first, no leading zero. */
  function NatToString(n: nat): (s: string)
    ensures |s| >= 1
    ensures AllDigits(s)
    ensures s[0] == '0' ==> n == 0 && s == "0"
    decreases n
  {
    if n < 10 then [DigitChar(n)] else NatToString(n / 10) + [DigitChar(n % 10)]
  }

  /** Python's `str(n)`: a minus sign for negative values, then the digits. */
  function IntToString(n: int): (s: string)
    ensures |s| >= 1
    ensures ' ' !in s
    ensures s[0] == '-' <==> n < 0
    ensures s[0] == '0' ==> s == "0"
    ensures n < 0 ==> |s| >= 2 && s[1] != '0'
  {
    if n < 0 then "-" + NatToString(-n) else NatToString(n)
  }

  /** The value of a non-empty string of digits. */
  function DigitsValue(s: string): (n: nat)
    requires AllDigits(s)
    decreases |s|
  {
    if |s| == 0 then 0 else DigitsValue(s[..|s| - 1]) * 10 + DigitValue(s[|s| - 1])
  }

  /** Reads an optionally signed decimal integer; `None` for anything else. */
  function ParseInt(s: string): Option<int> {
    if |s| >= 2 && s[0] == '-' && AllDigits(s[1..]) then Some(-(DigitsValue(s[1..]) as int))
    else if |s| >= 1 && AllDigits(s) then Some(DigitsValue(s))
    else None
  }

  lemma {:induction false} DigitsOfNat(n: nat)
    ensures DigitsValue(NatToString(n)) == n
    decreases n
  {
    var s := NatToString(n);
    if n < 10 {
      assert s == [DigitChar(n)];
      assert s[..|s| - 1] == [];
    } else {
      var p := NatToString(n / 10);
      assert s == p + [DigitChar(n % 10)];
      assert s[..|s| - 1] == p;
      DigitsOfNat(n / 10);
    }
  }

  /** A digit string parses to its value. */
  lemma ParseDigits(d: string)
    requires |d| >= 1 && AllDigits(d)
    ensures ParseInt(d) == Some(DigitsValue(d) as int)
  {
    assert d[0] != '-' by { assert IsDigit(d[0]); }
  }

  /** A minus sign before a digit string parses to the negated value. */
  lemma ParseNegatedDigits(d: string)
    requires |d| >= 1 && AllDigits(d)
    ensures ParseInt("-" + d) == Some(-(DigitsValue(d) as int))
  {
    assert ("-" + d)[1..] == d;
  }

  /** Round trip: parsing the rendering of any integer gives it back. */
  lemma ParseIntToString(n: int)
    ensures ParseInt(IntToString(n)) == Some(n)
  {
    if n < 0 {
      ParseNegatedDigits(NatToString(-n));
      DigitsOfNat(-n);
    } else {
      ParseDigits(NatToString(n));
      DigitsOfNat(n);
    }
  }

  /** Distinct integers are printed differently. */
  lemma IntToStringInjective(a: int, b: int)
    requires IntToString(a) == IntToString(b)
    ensures a == b
  {
    ParseIntToString(a);
    ParseIntToString(b);
  }
}

=== FILE: endpoints.dfy ===
/** The three controller endpoints of the integration API, each nested
    under the previous one. */
module Endpoints {
  import opened PyRepr

  const Scheme: string := "https://"
  const SitesPath: string := "/proxy/network/integrations/v1/sites"
  const StatisticsSuffix: string := "/statistics/latest"

  predicate IsPrefix(p: string, s: string) {
    |p| <= |s| && s[..|p|] == p
  }

  /** The site collection of the controller at `addr` (host or host:port). */
  function SitesUrl(addr: string): string {
    Scheme + addr + SitesPath
  }

  /** The device collection of one site. */
  function DevicesUrl(addr: string, siteId: string): string {
    SitesUrl(addr) + "/" + siteId + "/devices"
  }

  /** The latest statistics of one device, spelled out from the sites URL
      as the script does. */
  function StatisticsUrl(addr: string, siteId: string, deviceId: string): string {
    SitesUrl(addr) + "/" + siteId + "/devices/" + deviceId + StatisticsSuffix
  }

  /** The statistics URL extends the devices URL, which extends the sites URL. */
  lemma EndpointsNest(addr: string, siteId: string, deviceId: string)
    ensures IsPrefix(Scheme, SitesUrl(addr))
    ensures IsPrefix(SitesUrl(addr) + "/", DevicesUrl(addr, siteId))
    ensures StatisticsUrl(addr, siteId, deviceId) == DevicesUrl(addr, siteId) + "/" + deviceId + StatisticsSuffix
    ensures IsPrefix(DevicesUrl(addr, siteId) + "/", StatisticsUrl(addr, siteId, deviceId))
  {
    var d := DevicesUrl(addr, siteId);
    var st := StatisticsUrl(addr, siteId, deviceId);
    assert st == d + "/" + deviceId + StatisticsSuffix;
    assert st == (d + "/") + (deviceId + StatisticsSuffix);
    assert d == (SitesUrl(addr) + "/") + (siteId + "/devices");
  }

  /** Different controller addresses give different sites URLs. */
  lemma SitesUrlInjective(a1: string, a2: string)
    requires SitesUrl(a1) == SitesUrl(a2)
    ensures a1 == a2
  {
    var u := SitesUrl(a1);
    assert a1 == u[|Scheme|..|u| - |SitesPath|];
    assert a2 == SitesUrl(a2)[|Scheme|..|u| - |SitesPath|];
  }

  /** On one controller, different sites have different device collections. */
  lemma DevicesUrlInjective(addr: string, s1: string, s2: string)
    requires DevicesUrl(addr, s1) == DevicesUrl(addr, s2)
    ensures s1 == s2
  {
    var p := SitesUrl(addr) + "/";
    var u := DevicesUrl(addr, s1);
    assert u == p + s1 + "/devices";
    assert DevicesUrl(addr, s2) == p + s2 + "/devices";
    assert s1 == u[|p|..|u| - 8];
    assert s2 == u[|p|..|u| - 8];
  }

  lemma CancelPrefix(p: string, x: string, y: string)
    requires p + x == p + y
    ensures x == y
  {
    assert x == (p + x)[|p|..];
    assert y == (p + y)[|p|..];
  }

  lemma CancelSuffix(x: string, y: string, q: string)
    requires x + q == y + q
    ensures x == y
  {
    assert x == (x + q)[..|x + q| - |q|];
    assert y == (y + q)[..|y + q| - |q|];
  }

  /** The first '/' of `s + "/" + t` is the one after `s` when `s` has none. */
  lemma SlashSplitUnique(s1: string, t1: string, s2: string, t2: string)
    requires '/' !in s1 && '/' !in s2
    requires s1 + "/" + t1 == s2 + "/" + t2
    ensures s1 == s2 && t1 == t2
  {
    var u := s1 + "/" + t1;
    SplitAtFirstSep(s1, '/', t1);
    SplitAtFirstSep(s2, '/', t2);
    assert s1 == Split(u, '/')[0] == s2;
    assert t1 == u[|s1| + 1..] && t2 == u[|s2| + 1..];
  }

  /** The statistics URL as a site-relative path under the sites URL. */
  lemma StatisticsUrlShape(addr: string, siteId: string, deviceId: string)
    ensures StatisticsUrl(addr, siteId, deviceId)
      == (SitesUrl(addr) + "/") + (siteId + "/" + ("devices/" + deviceId + StatisticsSuffix))
  {
  }

  /** On one controller, slash-free ids name distinct statistics URLs:
      the URL determines both the site and the device it was built for. */
  lemma StatisticsUrlInjective(addr: string, s1: string, d1: string, s2: string, d2: string)
    requires '/' !in s1 && '/' !in s2
    requires StatisticsUrl(addr, s1, d1) == StatisticsUrl(addr, s2, d2)
    ensures s1 == s2 && d1 == d2
  {
    var p := SitesUrl(addr) + "/";
    var t1 := "devices/" + d1 + StatisticsSuffix;
    var t2 := "devices/" + d2 + StatisticsSuffix;
    StatisticsUrlShape(addr, s1, d1);
    StatisticsUrlShape(addr, s2, d2);
    CancelPrefix(p, s1 + "/" + t1, s2 + "/" + t2);
    SlashSplitUnique(s1, t1, s2, t2);
    DeviceSuffixInjective(d1, d2);
  }

  lemma DeviceSuffixInjective(d1: string, d2: string)
    requires "devices/" + d1 + StatisticsSuffix == "devices/" + d2 + StatisticsSuffix
    ensures d1 == d2
  {
    assert "devices/" + d1 + StatisticsSuffix == "devices/" + (d1 + StatisticsSuffix);
    assert "devices/" + d2 + StatisticsSuffix == "devices/" + (d2 + StatisticsSuffix);
    CancelPrefix("devices/", d1 + StatisticsSuffix, d2 + StatisticsSuffix);
    CancelSuffix(d1, d2, StatisticsSuffix);
  }
}

=== FILE: metric.dfy ===
/** Selection of the utilisation figure the check compares. */
module Metric {
  import opened Wrappers

  /** The latest statistics of a device, reduced to the two fields the
      check reads, already as integers. */
  datatype Statistics = Statistics(cpuUtilizationPct: int, memoryUtilizationPct: int)

  /** The modes the script understands. */
  const KnownModes: set<string> := {"cpu", "memory"}

  /** Mode `cpu` reads `cpuUtilizationPct`, mode `memory` reads
      `memoryUtilizationPct`; any other mode leaves the value unset. */
  function SelectMetric(mode: string, stats: Statistics): (r: Option<int>)
    ensures r.Some? <==> mode in KnownModes
    ensures mode == "cpu" ==> r == Some(stats.cpuUtilizationPct)
    ensures mode == "memory" ==> r == Some(stats.memoryUtilizationPct)
  {
    if mode == "cpu" then Some(stats.cpuUtilizationPct)
    else if mode == "memory" then Some(stats.memoryUtilizationPct)
    else None
  }
}

=== FILE: pyrepr.dfy ===
/** The id extraction `str({id}).split("'")[1]`: Python renders a one-element
    set of strings as `{` + repr(id) + `}` and the script cuts the id out of
    that text again at the quote characters. */
module PyRepr {

  const Quote: char := '\''
  const DoubleQuote: char := '"'
  const Backslash: char := '\\'

  /** An ASCII control character, which `repr` writes as an escape. */
  predicate IsControl(c: char) {
    c < ' ' || c as int == 0x7f
  }

  /** Printable ASCII, which `repr` writes literally unless it is a quote
      or a backslash. */
  predicate IsPrintableAscii(c: char) {
    ' ' <= c <= '~'
  }

  /** The ids the extraction returns unchanged: printable ASCII with no
      quote, no double quote and no backslash. */
  predicate SafeId(id: string) {
    forall i :: 0 <= i < |id| ==>
      IsPrintableAscii(id[i]) && id[i] != Quote && id[i] != DoubleQuote && id[i] != Backslash
  }

  /** `repr` quotes with `"` only when the text holds `'` and no `"`. */
  function QuoteFor(s: string): (q: char)
    ensures q == Quote || q == DoubleQuote
  {
    if Quote in s && DoubleQuote !in s then DoubleQuote else Quote
  }

  function HexDigit(d: nat): char
    requires d < 16
  {
    "0123456789abcdef"[d]
  }

  /** How `repr` writes one character inside quotes `q`. */
  function EscapeChar(c: char, q: char): (e: string)
    ensures |e| >= 1
    ensures c == Quote && q != Quote ==> e == [c]
    ensures !IsControl(c) && c != q && c != Backslash ==> e == [c]
  {
    if c == q || c == Backslash then [Backslash, c]
    else if c == '\n' then "\\n"
    else if c == '\r' then "\\r"
    else if c == '\t' then "\\t"
    else if IsControl(c) then "\\x" + [HexDigit(c as int / 16), HexDigit(c as int % 16)]
    else [c]
  }

  function Escape(s: string, q: char): string
    decreases |s|
  {
    if |s| == 0 then "" else EscapeChar(s[0], q) + Escape(s[1..], q)
  }

  /** `repr(s)` for a `str`. */
  function StrRepr(s: string): string {
    var q := QuoteFor(s);
    [q] + Escape(s, q) + [q]
  }

  /** `str({s})` for a one-element set holding the `str` value `s`. */
  function SetRepr(s: string): string {
    "{" + StrRepr(s) + "}"
  }

  /** Python's `s.split(sep)` for a one-character separator. */
  function Split(s: string, sep: char): (parts: seq<string>)
    ensures |parts| >= 1
    ensures forall i :: 0 <= i < |parts| ==> sep !in parts[i]
    decreases |s|
  {
    if |s| == 0 then [""]
    else
      var rest := Split(s[1..], sep);
      if s[0] == sep then [""] + rest
      else [[s[0]] + rest[0]] + rest[1..]
  }

  /** `sep.join(parts)`. */
  function Join(parts: seq<string>, sep: char): string
    requires |parts| >= 1
    decreases |parts|
  {
    if |parts| == 1 then parts[0] else parts[0] + [sep] + Join(parts[1..], sep)
  }

  /** Joining the pieces of a split restores the text. */
  lemma {:induction false} JoinSplit(s: string, sep: char)
    ensures Join(Split(s, sep), sep) == s
    decreases |s|
  {
    if |s| > 0 {
      var rest := Split(s[1..], sep);
      JoinSplit(s[1..], sep);
      if s[0] == sep {
        assert Split(s, sep)[1..] == rest;
      } else {
        var parts := Split(s, sep);
        if |rest| == 1 {
          assert parts == [[s[0]] + rest[0]];
        } else {
          assert parts[1..] == rest[1..];
          assert Join(parts, sep) == [s[0]] + rest[0] + [sep] + Join(rest[1..], sep);
        }
      }
    }
  }

  /** Text without the separator splits into itself alone. */
  lemma {:induction false} SplitNoSep(s: string, sep: char)
    requires sep !in s
    ensures Split(s, sep) == [s]
    decreases |s|
  {
    if |s| > 0 {
      SplitNoSep(s[1..], sep);
      assert [s[0]] + s[1..] == s;
    }
  }

  /** The first piece ends at the first separator. */
  lemma {:induction false} SplitAtFirstSep(a: string, sep: char, b: string)
    requires sep !in a
    ensures Split(a + [sep] + b, sep) == [a] + Split(b, sep)
    decreases |a|
  {
    var s := a + [sep] + b;
    if |a| == 0 {
      assert s[1..] == b;
    } else {
      assert s[1..] == a[1..] + [sep] + b;
      SplitAtFirstSep(a[1..], sep, b);
      assert [a[0]] + a[1..] == a;
    }
  }

  /** Text holding the separator splits into at least two pieces. */
  lemma {:induction false} SplitAtLeastTwo(s: string, sep: char)
    requires sep in s
    ensures |Split(s, sep)| >= 2
    decreases |s|
  {
    if s[0] != sep {
      SplitAtLeastTwo(s[1..], sep);
    }
  }

  lemma {:induction false} EscapeKeepsQuote(s: string, q: char)
    requires Quote in s && q != Quote
    ensures Quote in Escape(s, q)
    decreases |s|
  {
    if s[0] == Quote {
      assert Escape(s, q)[0] == Quote;
    } else {
      EscapeKeepsQuote(s[1..], q);
      var e := Escape(s, q);
      var tail := Escape(s[1..], q);
      assert e == EscapeChar(s[0], q) + tail;
      var k :| 0 <= k < |tail| && tail[k] == Quote;
      assert e[|EscapeChar(s[0], q)| + k] == Quote;
    }
  }

  lemma {:induction false} EscapeSafe(s: string)
    requires SafeId(s)
    ensures Escape(s, Quote) == s
    decreases |s|
  {
    if |s| > 0 {
      assert SafeId(s[1..]);
      EscapeSafe(s[1..]);
    }
  }

  /** `str({id})` always contains a quote character, so index 1 of the
      split exists for every id and the script never fails there. */
  lemma SetReprSplitsInTwo(id: string)
    ensures |Split(SetRepr(id), Quote)| >= 2
  {
    var r := SetRepr(id);
    var q := QuoteFor(id);
    if q == Quote {
      assert r[1] == Quote;
    } else {
      EscapeKeepsQuote(id, q);
      var k :| 0 <= k < |Escape(id, q)| && Escape(id, q)[k] == Quote;
      assert r[2 + k] == Quote;
    }
    SplitAtLeastTwo(r, Quote);
  }

  /** `str({id}).split("'")[1]`. */
  function ExtractId(id: string): string {
    SetReprSplitsInTwo(id);
    Split(SetRepr(id), Quote)[1]
  }

  /** Escaping never introduces a quote the text did not hold. */
  lemma {:induction false} EscapeAddsNoQuote(s: string)
    requires Quote !in s
    ensures Quote !in Escape(s, Quote)
    decreases |s|
  {
    if |s| > 0 {
      assert Quote !in s[1..] by {
        assert forall k :: 0 <= k < |s[1..]| ==> s[1..][k] == s[k + 1];
      }
      EscapeAddsNoQuote(s[1..]);
      assert Quote !in EscapeChar(s[0], Quote);
    }
  }

  /** For every id without a `'`, the extraction returns exactly the body
      of its `repr`: the id with backslashes doubled and control characters
      escaped. */
  lemma ExtractUnquotedId(id: string)
    requires Quote !in id
    ensures ExtractId(id) == Escape(id, Quote)
  {
    var e := Escape(id, Quote);
    assert QuoteFor(id) == Quote;
    EscapeAddsNoQuote(id);
    assert SetRepr(id) == "{" + [Quote] + (e + [Quote] + "}");
    assert Quote !in "{";
    SplitAtFirstSep("{", Quote, e + [Quote] + "}");
    SplitAtFirstSep(e, Quote, "}");
    SplitNoSep("}", Quote);
  }

  /** For an id drawn from the safe alphabet the extraction is the identity. */
  lemma ExtractSafeId(id: string)
    requires SafeId(id)
    ensures ExtractId(id) == id
  {
    assert Quote !in id by {
      assert forall k :: 0 <= k < |id| ==> id[k] != Quote;
    }
    EscapeSafe(id);
    ExtractUnquotedId(id);
  }

  /** Outside the safe alphabet the extraction mangles the id: an embedded
      quote makes `repr` switch to double quotes and the cut lands inside. */
  lemma ExtractQuotedIdMangled()
    ensures ExtractId("a'b") == "b\"}"
  {
    var r := SetRepr("a'b");
    assert r == "{\"a'b\"}";
    SplitAtFirstSep("{\"a", Quote, "b\"}");
    SplitNoSep("b\"}", Quote);
  }

  /** The id `a\b` comes back as `a\\b`: `repr` doubles the backslash. */
  lemma ExtractBackslashIdDoubled()
    ensures ExtractId("a\\b") == "a\\\\b"
  {
    var id := "a\\b";
    var escaped := "a\\\\b";
    assert Escape(id, Quote) == escaped by {
      assert Escape(id, Quote) == EscapeChar('a', Quote) + Escape(id[1..], Quote);
      assert Escape(id[1..], Quote) == EscapeChar(Backslash, Quote) + Escape(id[2..], Quote);
      assert Escape(id[2..], Quote) == EscapeChar('b', Quote) + Escape(id[3..], Quote);
    }
    ExtractUnquotedId(id);
  }
}

=== FILE: reporter.dfy ===
/** The one-line status message printed after classification. */
module Reporter {
  import opened Wrappers
  import opened Classifier
  import opened Decimal

  /** The text between the mode and the value in every status line. */
  const UtilizationLabel: string := " utilization in %: "

  /** `"<LEVEL> - <mode> utilization in %: <value>"`. */
  function StatusLine(s: Status, mode: string, value: int): string {
    LevelPrefix(s) + StatusBody(mode, value)
  }

  /** `"<LEVEL> - "`. */
  function LevelPrefix(s: Status): string {
    Name(s) + " - "
  }

  /** `"<mode> utilization in %: <value>"`. */
  function StatusBody(mode: string, value: int): string {
    mode + UtilizationLabel + IntToString(value)
  }

  /** The position of the last occurrence of `c` in `s`, if any. */
  function LastIndexOf(s: string, c: char): (r: Option<nat>)
    ensures r.Some? ==> r.value < |s| && s[r.value] == c
    ensures r.Some? ==> forall j :: r.value < j < |s| ==> s[j] != c
    ensures r.None? ==> c !in s
    decreases |s|
  {
    if |s| == 0 then None
    else if s[|s| - 1] == c then Some(|s| - 1)
    else LastIndexOf(s[..|s| - 1], c)
  }

  /** Which level a line opens with, by its fixed prefix. */
  function ParseLevel(line: string): Option<Status> {
    if |line| >= 5 && line[..5] == "OK - " then Some(Ok)
    else if |line| >= 10 && line[..10] == "WARNING - " then Some(Warning)
    else if |line| >= 11 && line[..11] == "CRITICAL - " then Some(Critical)
    else None
  }

  /** Reads `"<mode> utilization in %: <value>"` back: the value is the
      text after the last space, the mode what precedes the label. */
  function ParseBody(rest: string): Option<(string, int)> {
    match LastIndexOf(rest, ' ')
    case None => None
    case Some(i) =>
      var head := rest[..i + 1];
      if |head| >= |UtilizationLabel| && head[|head| - |UtilizationLabel|..] == UtilizationLabel then
        match ParseInt(rest[i + 1..])
        case None => None
        case Some(v) => Some((head[..|head| - |UtilizationLabel|], v))
      else None
  }

  /** Reads a status line back into its level, mode and value. */
  function ParseStatusLine(line: string): Option<(Status, string, int)> {
    match ParseLevel(line)
    case None => None
    case Some(s) =>
      match ParseBody(line[|LevelPrefix(s)|..])
      case None => None
      case Some(body) => Some((s, body.0, body.1))
  }

  /** The level prefix of a line determines its level. */
  lemma ParseLevelOfPrefix(s: Status, rest: string)
    ensures ParseLevel(LevelPrefix(s) + rest) == Some(s)
  {
    var line := LevelPrefix(s) + rest;
    match s
    case Ok =>
      assert line[..5] == "OK - ";
    case Warning =>
      assert line[..10] == "WARNING - ";
      assert line[..5] != "OK - " by { assert line[0] == 'W'; }
    case Critical =>
      assert line[..11] == "CRITICAL - ";
      assert line[..5] != "OK - " by { assert line[0] == 'C'; }
      assert line[..10] != "WARNING - " by { assert line[0] == 'C'; }
  }

  lemma ParseBodyRoundTrip(mode: string, value: int)
    ensures ParseBody(StatusBody(mode, value)) == Some((mode, value))
  {
    var digits := IntToString(value);
    var head := mode + UtilizationLabel;
    var rest := head + digits;
    var i := |head| - 1;
    assert rest[i] == ' ';
    assert forall j :: i < j < |rest| ==> rest[j] == digits[j - |head|];
    LastIndexAfter(rest, ' ', i);
    assert rest[..i + 1] == head;
    assert rest[i + 1..] == digits;
    assert head[|head| - |UtilizationLabel|..] == UtilizationLabel;
    assert head[..|head| - |UtilizationLabel|] == mode;
    ParseIntToString(value);
  }

  /** Round trip: a printed status line determines its level, mode and value. */
  lemma ParseStatusLineRoundTrip(s: Status, mode: string, value: int)
    ensures ParseStatusLine(StatusLine(s, mode, value)) == Some((s, mode, value))
  {
    var prefix := LevelPrefix(s);
    var body := StatusBody(mode, value);
    assert (prefix + body)[|prefix|..] == body;
    ParseLevelOfPrefix(s, body);
    ParseBodyRoundTrip(mode, value);
  }

  /** If `c` sits at `i` and nowhere after it, `i` is its last index. */
  lemma {:induction false} LastIndexAfter(s: string, c: char, i: nat)
    requires i < |s| && s[i] == c
    requires forall j :: i < j < |s| ==> s[j] != c
    ensures LastIndexOf(s, c) == Some(i)
    decreases |s|
  {
    if i < |s| - 1 {
      var p := s[..|s| - 1];
      assert forall j :: i < j < |p| ==> p[j] == s[j];
      LastIndexAfter(p, c, i);
    }
  }

  /** Two status lines are equal only when level, mode and value all agree. */
  lemma StatusLineInjective(s1: Status, m1: string, v1: int, s2: Status, m2: string, v2: int)
    requires StatusLine(s1, m1, v1) == StatusLine(s2, m2, v2)
    ensures s1 == s2 && m1 == m2 && v1 == v2
  {
    ParseStatusLineRoundTrip(s1, m1, v1);
    ParseStatusLineRoundTrip(s2, m2, v2);
  }
}

=== FILE: resolver.dfy ===
/** The two first-match lookups of the script: a site by its name and a
    device by its MAC address, each a `next(generator, None)` scan. */
module Resolver {
  import opened Wrappers

  /** An entry of the controller's site collection. */
  datatype Site = Site(id: string, name: string)

  /** An entry of a site's device collection. */
  datatype Device = Device(id: string, macAddress: string)

  /** The index of the first record whose `field` equals `key`, scanning
      left to right as Python's generator does. */
  function FirstIndex<T, K(==)>(xs: seq<T>, key: K, field: T -> K): (r: Option<nat>)
    ensures r.Some? ==> r.value < |xs| && field(xs[r.value]) == key
    ensures r.Some? ==> forall j :: 0 <= j < r.value ==> field(xs[j]) != key
    ensures r.None? ==> forall j :: 0 <= j < |xs| ==> field(xs[j]) != key
    decreases |xs|
  {
    if |xs| == 0 then None
    else if field(xs[0]) == key then Some(0)
    else match FirstIndex(xs[1..], key, field)
      case None => None
      case Some(i) => Some(i + 1)
  }

  /** `next((x for x in xs if field(x) == key), None)`. */
  function FindFirst<T, K(==)>(xs: seq<T>, key: K, field: T -> K): (r: Option<T>)
    ensures r.Some? <==> exists i :: 0 <= i < |xs| && field(xs[i]) == key
    ensures r.Some? ==> field(r.value) == key
    ensures r.Some? ==> exists i :: (0 <= i < |xs| && xs[i] == r.value
      && forall j :: 0 <= j < i ==> field(xs[j]) != key)
  {
    match FirstIndex(xs, key, field)
    case None => None
    case Some(i) => Some(xs[i])
  }

  /** The site named `name` (exact, case-sensitive), first one wins. */
  function FindSite(sites: seq<Site>, name: string): (r: Option<Site>)
    ensures r.Some? <==> exists i :: 0 <= i < |sites| && sites[i].name == name
    ensures r.Some? ==> r.value.name == name
    ensures r.Some? ==> exists i :: (0 <= i < |sites| && sites[i] == r.value
      && forall j :: 0 <= j < i ==> sites[j].name != name)
  {
    FindFirst(sites, name, (s: Site) => s.name)
  }

  /** The device whose MAC address equals `mac` (exact string match), first one wins. */
  function FindDevice(devices: seq<Device>, mac: string): (r: Option<Device>)
    ensures r.Some? <==> exists i :: 0 <= i < |devices| && devices[i].macAddress == mac
    ensures r.Some? ==> r.value.macAddress == mac
    ensures r.Some? ==> exists i :: (0 <= i < |devices| && devices[i] == r.value
      && forall j :: 0 <= j < i ==> devices[j].macAddress != mac)
  {
    FindFirst(devices, mac, (d: Device) => d.macAddress)
  }

  /** Records after the first match never influence the result. */
  lemma {:induction false} FindFirstIgnoresSuffix<T, K>(xs: seq<T>, ys: seq<T>, key: K, field: T -> K)
    requires FirstIndex(xs, key, field).Some?
    ensures FindFirst(xs + ys, key, field) == FindFirst(xs, key, field)
    decreases |xs|
  {
    if field(xs[0]) != key {
      assert (xs + ys)[1..] == xs[1..] + ys;
      FindFirstIgnoresSuffix(xs[1..], ys, key, field);
      assert FirstIndex(xs + ys, key, field) == Some(FirstIndex(xs[1..] + ys, key, field).value + 1);
    }
  }
}

=== FILE: sample_readings.dfy ===
/** Three sample readings in mode cpu against the help text's example
    thresholds, 80 (warning) and 90 (critical). */
module SampleReadings {
  import opened Classifier
  import opened Decimal
  import opened Reporter

  lemma Prints85()
    ensures IntToString(85) == "85"
  {
    assert NatToString(85) == NatToString(8) + [DigitChar(5)];
  }

  lemma Prints95()
    ensures IntToString(95) == "95"
  {
    assert NatToString(95) == NatToString(9) + [DigitChar(5)];
  }

  lemma Prints10()
    ensures IntToString(10) == "10"
  {
    assert NatToString(10) == NatToString(1) + [DigitChar(0)];
  }

  /** The status lines of the three readings, piece by piece and as one literal. */
  lemma SpellsWarning()
    ensures "WARNING - " + "cpu" + UtilizationLabel + "85" == "WARNING - cpu utilization in %: 85"
  {
  }

  lemma SpellsCritical()
    ensures "CRITICAL - " + "cpu" + UtilizationLabel + "95" == "CRITICAL - cpu utilization in %: 95"
  {
  }

  lemma SpellsOk()
    ensures "OK - " + "cpu" + UtilizationLabel + "10" == "OK - cpu utilization in %: 10"
  {
  }

  /** Scenario reading 85 against 80/90: a warning, exit code 1. */
  lemma ScenarioWarning()
    ensures Classify(85, 80, 90) == Warning && ExitCode(Warning) == 1
    ensures StatusLine(Warning, "cpu", 85) == "WARNING - cpu utilization in %: 85"
  {
    Prints85();
    SpellsWarning();
  }

  /** Scenario reading 95 against 80/90: critical, exit code 2. */
  lemma ScenarioCritical()
    ensures Classify(95, 80, 90) == Critical && ExitCode(Critical) == 2
    ensures StatusLine(Critical, "cpu", 95) == "CRITICAL - cpu utilization in %: 95"
  {
    Prints95();
    SpellsCritical();
  }

  /** Scenario reading 10 against 80/90: OK, exit code 0. */
  lemma ScenarioOk()
    ensures Classify(10, 80, 90) == Ok && ExitCode(Ok) == 0
    ensures StatusLine(Ok, "cpu", 10) == "OK - cpu utilization in %: 10"
  {
    Prints10();
    SpellsOk();
  }
}

=== FILE: wrappers.dfy ===
/** The Option type used where the script relies on `None`. */
module Wrappers {

  /** `None` where the script's `next(..., None)` finds nothing or a mode selects no field. */
  datatype Option<+T> = None | Some(value: T)
}
